=== FILE: README.md ===
# Conway's Game of Life (life.py), modelled in Dafny

`life.py` is a small pygame program. Its model layer is a height x width
board of 0/1 cells on a torus. `next_gen` advances the board by one
generation under the B3/S23 rule: a live cell with two or three live
neighbours survives, and a dead cell with exactly three is born.
`count_neighbors` counts the eight neighbours with both indices taken modulo
the board's size. Patterns are written to and read from a line-based text
format: `save_pattern` writes `# Pattern: Saved` and then one `row,col` line
per live cell. `load_patterns` reads any number of `# Pattern: <name>` blocks
into a dictionary, skipping blank and malformed lines. `apply_pattern` puts a
list of pairs on a blank board of the same size, dropping pairs that lie off
the board.

The Dafny project models that layer, module by module:

- `Grid` (grid.dfy): the board as a value (`seq<seq<int>>`), `make_board`,
  and the link between a mutable `array2<int>` and its value.
- `Engine` (engine.dfy): `count_neighbors` and `next_gen`.
  - Each is an imperative method proved against a specification function
    (`Neighbors`, `NextBoard`).
  - A second, independent definition of the generation on the torus
    (`TorusNeighbors`, `TorusNext`, written with explicit predecessor and
    successor indices instead of `%`) is proved equal to it.
- `PyText` (pytext.dfy): the parts of Python's string built-ins the codec
  relies on: `str.strip()`, `str.split(",")`, `int(text)` and `f"{n}"`.
- `Codec` (codec.dfy): `save_pattern` and `load_patterns` without the file.
  - A text is a sequence of lines.
  - `load_patterns` is the left fold `Feed` of one loop step `Step`,
    followed by the final flush.
- `Applier` (applier.dfy): `apply_pattern`, and what saving a board and
  loading it back gives.
- `Scenarios` (scenarios.dfy): the 5 x 5 blinker, the 4 x 4 block, and
  pattern files with stray lines and spaced numbers.

Python's `None` for "no block name yet" is modelled as the empty string.
Both are false where the source tests them, and neither is ever used as a
key.

## Model

| member | source | states |
|---|---|---|
| Grid.MakeBoard | life.py:16-17 | the board has `height` rows of `width` cells, all 0; a negative size gives no rows or no columns, as `range` does |
| Grid.NewBoard | life.py:16-17 | a fresh mutable board holding `make_board(width, height)` |
| Engine.Neighbors | life.py:20-29 | on a 0/1 board the neighbour count lies between 0 and 8 |
| Engine.ScannedAll | life.py:23-28 | the two loops over the offsets, skipping (0, 0), add exactly the eight wrapped neighbours |
| Engine.CountNeighbors | life.py:20-29 | the nested loops return the sum of the eight wrapped neighbours of (x, y) |
| Engine.Rule | life.py:38-41 | the new value is 0 or 1; fewer than two or more than three neighbours give 0; three give 1 for a 0/1 cell; two keep a 0/1 cell as it was |
| Engine.NextCell | life.py:37-41 | a cell's new value is 0 or 1; it is 1 only with two or three neighbours; a 0/1 cell with exactly three neighbours becomes 1 |
| Engine.NextBoard | life.py:32-42 | the next generation has the input's height and width and holds only 0s and 1s |
| Engine.NextGen | life.py:32-42 | the fresh board the loops fill equals `NextBoard` of the input; the input is not written |
| Engine.LifeRule | life.py:38-41 | on a 0/1 board a cell is alive next exactly when it was alive with 2 or 3 live neighbours or dead with exactly 3, and dead next in every other case |
| Engine.StepIsWrap | life.py:27 | for an index inside a ring, `% n` after a step of -1, 0 or +1 is the previous, the same or the next index on the ring |
| Engine.NeighborsOnTorus | life.py:20-29 | the `%`-based count equals the eight-neighbour sum on the torus, with row 0 below the last row and column 0 right of the last column |
| Engine.NextBoardOnTorus | life.py:32-42 | `next_gen` equals the independent torus definition of a generation on every board with a row and a column |
| Engine.NeighborsAtOrigin | life.py:27 | cell (0, 0) counts the last row and the last column as its neighbours |
| Engine.NeighborsOnSingleCell | life.py:23-28 | on a 1 x 1 board every offset wraps onto the cell itself, so it counts itself eight times |
| PyText.TrimStartSuffix | life.py:61 | removing the leading whitespace keeps a suffix of the text |
| PyText.TrimEndPrefix | life.py:61 | removing the trailing whitespace keeps a prefix of the text |
| PyText.Strip | life.py:61 | `str.strip()` on ASCII whitespace; what it returns is stated by `PyText.StripResult` and `PyText.StripSpaces` |
| PyText.StripResult | life.py:61 | `strip()` returns text with whitespace at neither end, no longer than its input |
| PyText.StripKeepsStripped | life.py:61 | `strip()` of text with whitespace at neither end is that text |
| PyText.TrimStartSpaces | life.py:61 | leading whitespace in front of text that starts with none is all that is removed at the front |
| PyText.TrimEndSpaces | life.py:61 | trailing whitespace after text that ends in none is all that is removed at the back |
| PyText.StripSpaces | life.py:61 | `strip()` removes exactly the whitespace around text with whitespace at neither end |
| PyText.Split | life.py:71 | `split(",")` returns at least one piece |
| PyText.SplitCounts | life.py:71 | `split(",")` returns one piece more than there are commas, and no piece holds a comma |
| PyText.SplitWithoutSep | life.py:71 | text without the separator splits into itself alone |
| PyText.SplitAtFirstSep | life.py:71 | the first separator ends the first field; the rest splits on its own |
| PyText.SplitPair | life.py:71 | `a,b` with no comma in either part splits into exactly `[a, b]` |
| PyText.NatToString | life.py:52 | the decimal text of a natural number is a non-empty run of digits, starting with `0` only for 0 |
| PyText.IntToString | life.py:52 | `f"{n}"` is non-empty, starts with `-` exactly when n is negative, holds only digits after that and ends in a digit |
| PyText.NatToStringRoundTrip | life.py:52 | the decimal text of a natural number is a non-empty run of digits that denotes it |
| PyText.ParseInt | life.py:71 | `int()` succeeds only when the stripped text is digits behind at most one leading sign, ending in a digit, and gives a negative number only after `-` |
| PyText.ParseIntSpaced | life.py:71 | `int()` of whitespace, an optional `+` or `-`, digits and whitespace is the digits' decimal value, negated after `-` |
| PyText.SignedDigits | life.py:71 | an optional sign followed by digits has whitespace at neither end and reads as the digits' value, negated after `-` |
| PyText.IntToStringRoundTrip | life.py:71 | `int(f"{n}")` is n for every integer n, negative ones included |
| Codec.SavePattern | life.py:46-52 | the lines written are the header `# Pattern: Saved` followed by one `i,j` line per cell of the scan equal to 1 |
| Codec.LiveBeforeMembers | life.py:49-52 | at any scan position, the cells listed so far are exactly the 1-cells the scan has passed |
| Codec.LiveBeforeOrdered | life.py:49-52 | the cells listed so far are in strictly increasing row-major order |
| Codec.LiveCells | life.py:49-52 | `save_pattern` lists every cell equal to 1 and nothing else, in strictly increasing row-major order, so each once |
| Codec.Encode | life.py:46-52 | the lines written are the header for `Saved`, then one line per listed live cell, in the order they are listed |
| Codec.HeaderLine | life.py:48 | a header line starts with `# Pattern:`, followed by a space and the name |
| Codec.CoordLine | life.py:52 | a line `f"{i},{j}"` is non-empty, has whitespace at neither end and does not start with `#` |
| Codec.Block | life.py:48-52 | a block is its header line followed by one line per pair, in order |
| Codec.ParseCoord | life.py:71 | a line is read as a pair only when it holds exactly one comma |
| Codec.ParseCoordFields | life.py:70-74 | a line of two comma-free fields around one comma is read as the pair of their `int()` values when both parse, and is skipped otherwise |
| Codec.Flush | life.py:65-66 | every stored name stays a key; the open block is stored under its name, replacing an earlier block of that name, when it is named and non-empty; no other entry changes (the same code ends the file, life.py:75-76) |
| Codec.Step | life.py:61-74 | one pass of the loop of `load_patterns` over a line; what it does is stated by `Codec.StepEffect` and `Codec.StepHeader` |
| Codec.StepEffect | life.py:61-74 | a blank line changes nothing; a header line stores the open block if it is named and non-empty, then opens an empty block under a name with whitespace at neither end; any other line keeps the dictionary and the name and appends at most one pair |
| Codec.Feed | life.py:60-74 | the loop never stores a block without a name or without coordinates |
| Codec.Decode | life.py:55-79 | the loaded dictionary never maps the empty name, and never maps a name to no coordinates |
| Codec.LoadPatterns | life.py:55-79 | the loop and its final flush compute `Decode` of the lines |
| Codec.FeedAppend | life.py:60 | reading `xs + ys` is reading `xs` and then continuing with `ys` from that state |
| Codec.IgnoredLineChangesNothing | life.py:61-74 | a blank line or a line that is neither a header nor two ints, wherever it stands, does not change the loaded dictionary |
| Codec.FeedIgnored | life.py:61-74 | a run of blank or malformed lines leaves the loop state as it was |
| Codec.IgnoredLinesChangeNothing | life.py:61-74 | any run of such lines does not change the loaded dictionary either |
| Codec.FeedSameUpToUnnamed | life.py:65-66 | coordinates gathered while no block is named never affect the dictionary |
| Codec.FeedHeaderless | life.py:57-74 | before the first header the dictionary stays empty and no block is named |
| Codec.HeaderlessPrefixIsDropped | life.py:57-76 | lines before the first header, pairs included, do not change what is loaded |
| Codec.StepHeader | life.py:61-68 | a header line, with any whitespace before it, after it and between `# Pattern:` and the name, stores the previous block if it is named and non-empty, then opens an empty block under the name without that whitespace |
| Codec.ParseCoordLine | life.py:71 | a line `f"{i},{j}"` parses back to `(i, j)` |
| Codec.StrippedPairIsRead | life.py:61-72 | a line with whitespace at neither end that does not start with `#` and parses as a pair is read as that pair |
| Codec.CoordLineReadsBack | life.py:61-72 | such a line survives `strip()`, is not a header and is read as its pair |
| Codec.FeedCoords | life.py:69-72 | lines read as pairs append those pairs to the current block and change nothing else |
| Codec.CoordLinesReadBack | life.py:52 | every line `save_pattern` writes for a list of pairs reads back as the pair at the same place |
| Codec.FeedHeader | life.py:64-68 | after a header the state is the dictionary loaded from the lines before it, with an empty block under that name |
| Codec.AppendBlock | life.py:64-76 | a header and its pair lines, appended to any text, add exactly that block to the dictionary, or nothing when the name or the list is empty |
| Codec.ReadAsPairsAt | life.py:69-72 | lines each read as the pair at the same place are read as the whole list |
| Codec.LoadBlock | life.py:55-79 | a file holding one named, non-empty block loads as exactly that block |
| Codec.RoundTrip | life.py:46-79 | loading what `save_pattern` wrote gives `{"Saved": live cells in row-major order}`, or `{}` for an all-dead board |
| Applier.Applied | life.py:82-88 | the board built has the input board's size and holds only 0s and 1s |
| Applier.AppliedCell | life.py:85-87 | a cell of the result is 1 exactly when its pair occurs in the list, and 0 otherwise; off-board pairs set nothing |
| Applier.AppliedDependsOnlyOnPairs | life.py:85-87 | two lists with the same pairs, in any order and with any repeats, give the same board |
| Applier.OffBoardPairsAreDropped | life.py:86 | pairs just above and just below the board are dropped, leaving the blank board |
| Applier.ApplyPattern | life.py:82-88 | the fresh board the loop fills equals `Applied` for the input board's size; the input's cells are not read |
| Applier.AppliedLiveCells | life.py:82-88 | putting the live cells of a 0/1 board on a blank board of its size gives the board back |
| Applier.SaveThenLoadRestoresBoard | life.py:177-186 | saving a 0/1 board with a live cell, loading the file and applying the `Saved` pattern to a blank board of the same size restores the board |
| Scenarios.TorusNextOfPattern | life.py:32-42 | on a board marked by a list of pairs, each cell of the next generation is the rule applied to the listed cell and its eight listed torus neighbours |
| Scenarios.PatternStep | life.py:32-42 | when the rule turns the pairs `xs` into the pairs `ys` cell by cell, one generation turns `apply_pattern`'s board for `xs` into that for `ys` |
| Scenarios.LyingRule | life.py:38-41 | on the 5 x 5 torus the rule turns cells (2,1), (2,2), (2,3) into (1,2), (2,2), (3,2) |
| Scenarios.StandingRule | life.py:38-41 | and (1,2), (2,2), (3,2) back into (2,1), (2,2), (2,3) |
| Scenarios.BlinkerRises | life.py:32-42 | one generation of the 5 x 5 board with live cells (2,1), (2,2), (2,3) is the board with live cells (1,2), (2,2), (3,2) |
| Scenarios.BlinkerFalls | life.py:32-42 | one more generation restores the first board: the blinker has period 2 |
| Scenarios.SquareRule | life.py:38-41 | on the 4 x 4 torus the rule keeps every cell of the 2 x 2 block at rows and columns 1 and 2 as it is |
| Scenarios.BlockIsStill | life.py:32-42 | one generation leaves the 4 x 4 board with the 2 x 2 block unchanged: the block is a still life |
| Scenarios.WordIsIgnored | life.py:70-74 | `x,1` raises ValueError in `int()` and is skipped |
| Scenarios.TripleIsIgnored | life.py:70-74 | `1,2,3` does not unpack into two values and is skipped |
| Scenarios.PlainPair | life.py:71-72 | `0,1` is read as (0, 1) |
| Scenarios.SpacedPair | life.py:61-72 | ` 2 , 0 ` is read as (2, 0): `int()` strips the spaces around each field |
| Scenarios.SpacedFields | life.py:71 | `int("2 ")` is 2 and `int(" 0")` is 0 |
| Scenarios.GliderPairs | life.py:69-72 | two lines `0,1` and ` 2 , 0 ` are read as the pairs `(0, 1)` and `(2, 0)` |
| Scenarios.GliderBlock | life.py:55-79 | the header line for `Glider` followed by `0,1` and ` 2 , 0 ` loads as `{"Glider": [(0, 1), (2, 0)]}` |
| Scenarios.SpacedPairIsRead | life.py:55-79 | the file `# Pattern: Glider`, `0,1`, ` 2 , 0 ` loads as `{"Glider": [(0, 1), (2, 0)]}` |
| Scenarios.StrayLinesChangeNothing | life.py:61-74 | a blank line, `x,1` and `1,2,3`, wherever they stand in a file, change nothing that is loaded |
| Scenarios.StrayLinesAreSkipped | life.py:61-74 | the same block with a blank line, `x,1` and `1,2,3` inside it loads the same two pairs |

## Left out

- `get_args`, `draw_board`, `draw_hud` and `main` (life.py:7-12, 92-124, 128-202): argument parsing, drawing, pygame events, the mouse, the clock and the random fill are user interface and I/O. The one use of `main` that is modelled is its save-then-load key, in `Applier.SaveThenLoadRestoresBoard`.
- Files: opening, reading and writing them is not modelled. `SavePattern` returns the lines it would write, and `LoadPatterns` takes the lines of the file. Line terminators are not modelled, since `strip()` removes them anyway.
- `FileNotFoundError` (life.py:77-78), for which `load_patterns` returns `{}`, depends on the file system and is not modelled.
- Dictionary insertion order: `Decode` returns a map. `main` takes the first entry of the loaded dictionary (life.py:183), which is `Saved` because that is the only block `save_pattern` writes.
- `PyText.ParseInt`: models `int()` for ASCII text only. It accepts surrounding ASCII whitespace, one optional sign and ASCII digits. Underscores between digits and non-ASCII digits, which Python also accepts, are not modelled. Nor is the limit of Python 3.11 and later on integer text: `int()` raises ValueError on more than 4300 digits. `load_patterns` skips such a line, but `ParseCoord` reads it. For the same reason `IntToStringRoundTrip` holds for every integer, while `f"{n}"` raises for one of more than 4300 digits.
- `PyText.Strip`: removes ASCII whitespace only. Python's `str.strip()` also removes non-ASCII whitespace.
- `Engine.NextBoard`: requires a rectangular board. Python would raise `IndexError` on a row shorter than the first. It also accepts rows longer than the first and ignores their extra cells. The model's requires excludes such boards. The mutable boards (`array2`) are always rectangular.
- `Engine.CountNeighbors`: requires at least one row and one column, because both indices are taken modulo the board's size. On a board with no columns, `next_gen` never calls it, and `NextGen` only requires a row.

=== FILE: applier.dfy ===
// apply_pattern of life.py: a list of (row, col) pairs set alive on a blank
// board of the given board's size, pairs outside the board dropped.

module Applier {
  import opened Grid
  import opened Codec

  /** The board apply_pattern builds, one pair after another: a blank h x w
      board on which every in-range pair is set to 1. */
  function Applied(h: nat, w: nat, coords: seq<Coord>): (b: Board)
    ensures |b| == h && forall i :: 0 <= i < h ==> |b[i]| == w
    ensures IsBinary(b)
  {
    if coords == [] then MakeBoard(w, h)
    else
      var prev := Applied(h, w, coords[..|coords| - 1]);
      var c := coords[|coords| - 1];
      if 0 <= c.0 < h && 0 <= c.1 < w then prev[c.0 := prev[c.0][c.1 := 1]] else prev
  }

  /** A cell is alive exactly when its pair occurs in the list; pairs off
      the board set nothing. */
  lemma {:induction false} AppliedCell(h: nat, w: nat, coords: seq<Coord>, i: int, j: int)
    requires 0 <= i < h && 0 <= j < w
    ensures Applied(h, w, coords)[i][j] == if (i, j) in coords then 1 else 0
  {
    if coords != [] {
      var init := coords[..|coords| - 1];
      AppliedCell(h, w, init, i, j);
      assert coords == init + [coords[|coords| - 1]];
    }
  }

  /** Only which pairs occur matters: not their order, not repeats. */
  lemma AppliedDependsOnlyOnPairs(h: nat, w: nat, xs: seq<Coord>, ys: seq<Coord>)
    requires forall c :: c in xs <==> c in ys
    ensures Applied(h, w, xs) == Applied(h, w, ys)
  {
    forall i, j | 0 <= i < h && 0 <= j < w
      ensures Applied(h, w, xs)[i][j] == Applied(h, w, ys)[i][j]
    {
      AppliedCell(h, w, xs, i, j);
      AppliedCell(h, w, ys, i, j);
    }
    SameBoard(Applied(h, w, xs), Applied(h, w, ys));
  }

  /** (-1, 0) and (h, 0) lie off an h-row board: nothing is set and nothing
      fails. */
  lemma OffBoardPairsAreDropped(h: nat, w: nat)
    ensures Applied(h, w, [(-1, 0 as int), (h as int, 0 as int)]) == MakeBoard(w, h)
  {
    forall i, j | 0 <= i < h && 0 <= j < w
      ensures Applied(h, w, [(-1, 0 as int), (h as int, 0 as int)])[i][j] == MakeBoard(w, h)[i][j]
    {
      AppliedCell(h, w, [(-1, 0 as int), (h as int, 0 as int)], i, j);
    }
    SameBoard(Applied(h, w, [(-1, 0 as int), (h as int, 0 as int)]), MakeBoard(w, h));
  }

  /** apply_pattern(board, coords): a fresh blank board of the same size,
      then each in-range pair set to 1 in turn. Only the board's size is
      read. */
  method ApplyPattern(board: array2<int>, coords: seq<Coord>) returns (newBoard: array2<int>)
    requires board.Length0 >= 1
    ensures fresh(newBoard)
    ensures Snapshot(newBoard) == Applied(board.Length0, board.Length1, coords)
  {
    var h, w := board.Length0, board.Length1;
    newBoard := NewBoard(w, h);
    for k := 0 to |coords|
      invariant forall i, j :: 0 <= i < h && 0 <= j < w ==>
        newBoard[i, j] == if (i, j) in coords[..k] then 1 else 0
    {
      assert coords[..k + 1] == coords[..k] + [coords[k]];
      var (i, j) := coords[k];
      if 0 <= i < h && 0 <= j < w {
        newBoard[i, j] := 1;
      }
    }
    assert coords[..|coords|] == coords;
    forall i, j | 0 <= i < h && 0 <= j < w
      ensures Snapshot(newBoard)[i][j] == Applied(h, w, coords)[i][j]
    {
      AppliedCell(h, w, coords, i, j);
    }
    SameBoard(Snapshot(newBoard), Applied(h, w, coords));
  }

  /** Setting the live cells of a 0/1 board on a blank board of its size
      gives the board back. */
  lemma AppliedLiveCells(b: Board)
    requires IsBoard(b) && IsBinary(b)
    ensures Applied(|b|, |b[0]|, LiveCells(b)) == b
  {
    var cells := LiveCells(b);
    forall i, j | 0 <= i < |b| && 0 <= j < |b[0]|
      ensures Applied(|b|, |b[0]|, cells)[i][j] == b[i][j]
    {
      AppliedCell(|b|, |b[0]|, cells, i, j);
      assert |b[i]| == |b[0]|;
    }
    SameBoard(Applied(|b|, |b[0]|, cells), b);
  }

  /** Saving a 0/1 board and loading the "Saved" pattern back onto a board
      of the same size restores it cell for cell. */
  lemma SaveThenLoadRestoresBoard(b: Board)
    requires IsBoard(b) && IsBinary(b) && LiveCells(b) != []
    ensures SavedName in Decode(Encode(b))
    ensures Applied(|b|, |b[0]|, Decode(Encode(b))[SavedName]) == b
  {
    RoundTrip(b);
    AppliedLiveCells(b);
  }
}

=== FILE: codec.dfy ===
// The pattern text format of life.py: save_pattern writes a board's live
// cells under the header `# Pattern: Saved`; load_patterns reads any number
// of `# Pattern: <name>` blocks of `row,col` lines back into a dictionary.
// A text is a sequence of lines; opening, reading and writing files is not
// part of this model.

module Codec {
  import opened Grid
  import opened PyText

  const HeaderPrefix: string := "# Pattern:"

  /** The name save_pattern always writes. */
  const SavedName: string := "Saved"

  /** The header of a block: the prefix, a space, then the name. */
  function HeaderLine(name: string): (line: string)
    ensures StartsWith(line, HeaderPrefix) && line[|HeaderPrefix|..] == " " + name
  {
    HeaderPrefix + " " + name
  }

  /** f"{i},{j}": a line with no whitespace at either end, and not a
      header. */
  function CoordLine(c: Coord): (line: string)
    ensures |line| >= 1 && IsStripped(line) && line[0] != '#'
  {
    IntToString(c.0) + "," + IntToString(c.1)
  }

  /** One coordinate line per pair, in order. */
  function CoordLines(cs: seq<Coord>): (lines: seq<string>)
    ensures |lines| == |cs|
  {
    seq(|cs|, k requires 0 <= k < |cs| => CoordLine(cs[k]))
  }

  /** A pattern block as the file holds it: the header, then the pairs. */
  function Block(name: string, cs: seq<Coord>): (lines: seq<string>)
    ensures |lines| == |cs| + 1 && lines[0] == HeaderLine(name)
    ensures forall k :: 0 <= k < |cs| ==> lines[k + 1] == CoordLine(cs[k])
  {
    var rest := CoordLines(cs);
    assert forall k :: 0 <= k < |cs| ==> rest[k] == CoordLine(cs[k]);
    [HeaderLine(name)] + rest
  }

  lemma BlockAppend(name: string, cs: seq<Coord>, c: Coord)
    ensures Block(name, cs + [c]) == Block(name, cs) + [CoordLine(c)]
  {
    assert CoordLines(cs + [c]) == CoordLines(cs) + [CoordLine(c)];
  }

  // ---------------------------------------------------------------- encoding

  /** Row-major order: earlier row first, then earlier column. */
  predicate Before(c: Coord, d: Coord) {
    c.0 < d.0 || (c.0 == d.0 && c.1 < d.1)
  }

  predicate RowMajor(cs: seq<Coord>) {
    forall p, q :: 0 <= p < q < |cs| ==> Before(cs[p], cs[q])
  }

  /** A scan position of save_pattern: row i, column j, or just past the
      last row. */
  predicate ScanPoint(b: Board, i: nat, j: nat) {
    if i < |b| then j <= |b[i]| else i == |b| && j == 0
  }

  /** The live cells save_pattern has passed before reaching (i, j): all of
      rows above i, then those of row i left of j. */
  function LiveBefore(b: Board, i: nat, j: nat): seq<Coord>
    requires ScanPoint(b, i, j)
    decreases i, j
  {
    if j == 0 then
      if i == 0 then [] else LiveBefore(b, i - 1, |b[i - 1]|)
    else LiveBefore(b, i, j - 1) + (if b[i][j - 1] == 1 then [(i as int, j - 1)] else [])
  }

  /** The cells save_pattern lists: exactly the cells equal to 1, each
      once, in strictly increasing row-major order. */
  function LiveCells(b: Board): (cs: seq<Coord>)
    ensures forall c :: c in cs <==> 0 <= c.0 < |b| && 0 <= c.1 < |b[c.0]| && b[c.0][c.1] == 1
    ensures RowMajor(cs)
  {
    LiveBeforeMembers(b, |b|, 0);
    LiveBeforeOrdered(b, |b|, 0);
    LiveBefore(b, |b|, 0)
  }

  /** The lines save_pattern writes for a board: the `Saved` header, then
      one line per live cell in the order they are listed. */
  function Encode(b: Board): (lines: seq<string>)
    ensures |lines| == |LiveCells(b)| + 1 && lines[0] == HeaderLine(SavedName)
    ensures forall k :: 0 <= k < |LiveCells(b)| ==> lines[k + 1] == CoordLine(LiveCells(b)[k])
  {
    Block(SavedName, LiveCells(b))
  }

  /** save_pattern(board, filename) without the file: the header, then one
      line per cell equal to 1, emitted while scanning rows and columns. */
  method SavePattern(board: array2<int>) returns (lines: seq<string>)
    ensures lines == Encode(Snapshot(board))
  {
    ghost var b := Snapshot(board);
    lines := [HeaderLine(SavedName)];
    for i := 0 to board.Length0
      invariant lines == Block(SavedName, LiveBefore(b, i, 0))
    {
      for j := 0 to board.Length1
        invariant lines == Block(SavedName, LiveBefore(b, i, j))
      {
        assert b[i][j] == board[i, j];
        if board[i, j] == 1 {
          BlockAppend(SavedName, LiveBefore(b, i, j), (i, j));
          assert LiveBefore(b, i, j + 1) == LiveBefore(b, i, j) + [(i, j)];
          lines := lines + [CoordLine((i, j))];
          assert lines == Block(SavedName, LiveBefore(b, i, j + 1));
        } else {
          assert LiveBefore(b, i, j + 1) == LiveBefore(b, i, j);
        }
      }
      assert LiveBefore(b, i + 1, 0) == LiveBefore(b, i, |b[i]|);
    }
  }

  /** A cell is passed before (i, j) exactly when its row is above i, or it
      is in row i left of j. */
  predicate PassedBefore(c: Coord, i: nat, j: nat) {
    c.0 < i || (c.0 == i && c.1 < j)
  }

  /** The cells listed before (i, j) are the cells equal to 1 that the scan
      has passed. */
  lemma {:induction false} LiveBeforeMembers(b: Board, i: nat, j: nat)
    requires ScanPoint(b, i, j)
    ensures forall c :: c in LiveBefore(b, i, j) <==>
      PassedBefore(c, i, j) && 0 <= c.0 < |b| && 0 <= c.1 < |b[c.0]| && b[c.0][c.1] == 1
    decreases i, j
  {
    if j == 0 {
      if i > 0 {
        LiveBeforeMembers(b, i - 1, |b[i - 1]|);
      }
    } else {
      LiveBeforeMembers(b, i, j - 1);
      if b[i][j - 1] == 1 {
        var prev, d := LiveBefore(b, i, j - 1), (i as int, j - 1);
        assert forall c :: c in prev + [d] <==> c in prev || c == d;
      }
    }
  }

  /** They are listed in strictly increasing row-major order. */
  lemma {:induction false} LiveBeforeOrdered(b: Board, i: nat, j: nat)
    requires ScanPoint(b, i, j)
    ensures RowMajor(LiveBefore(b, i, j))
    decreases i, j
  {
    if j == 0 {
      if i > 0 {
        LiveBeforeOrdered(b, i - 1, |b[i - 1]|);
      }
    } else if b[i][j - 1] == 1 {
      LiveBeforeOrdered(b, i, j - 1);
      LiveBeforeMembers(b, i, j - 1);
      RowMajorAppend(LiveBefore(b, i, j - 1), (i, j - 1));
    } else {
      LiveBeforeOrdered(b, i, j - 1);
    }
  }

  /** A cell after every listed one keeps the list in row-major order. */
  lemma RowMajorAppend(cs: seq<Coord>, d: Coord)
    requires RowMajor(cs)
    requires forall c :: c in cs ==> Before(c, d)
    ensures RowMajor(cs + [d])
  {
    forall p, q | 0 <= p < q < |cs + [d]|
      ensures Before((cs + [d])[p], (cs + [d])[q])
    {
      assert (cs + [d])[p] in cs;
    }
  }

  // ---------------------------------------------------------------- decoding

  predicate StartsWith(s: string, prefix: string) {
    |prefix| <= |s| && s[..|prefix|] == prefix
  }

  /** `i, j = map(int, line.split(","))`: exactly two comma-separated
      fields, each an int; a ValueError (too few or too many fields, or a
      field that is not an int) is None. */
  function ParseCoord(line: string): (r: Option<Coord>)
    ensures r.Some? ==> multiset(line)[','] == 1
  {
    SplitCounts(line, ',');
    var parts := Split(line, ',');
    if |parts| != 2 then None
    else match (ParseInt(parts[0]), ParseInt(parts[1]))
      case (Some(i), Some(j)) => Some((i, j))
      case _ => None
  }

  /** A line of two comma-free fields around one comma is read as the pair of
      their int() values when both parse, and is skipped otherwise. */
  lemma ParseCoordFields(a: string, b: string)
    requires ',' !in a && ',' !in b
    ensures ParseCoord(a + [','] + b) ==
      if ParseInt(a).Some? && ParseInt(b).Some? then Some((ParseInt(a).value, ParseInt(b).value)) else None
  {
    SplitPair(a, ',', b);
  }

  /** The loop state of load_patterns: the dictionary built so far, the
      current block's name ("" until a header is read; the source's None is
      just as false) and the coordinates read since that header. */
  datatype Parser = Parser(patterns: map<string, seq<Coord>>, name: string, coords: seq<Coord>)

  const Start: Parser := Parser(map[], "", [])

  /** `if current_name and coords: patterns[current_name] = coords` */
  function Flush(p: Parser): (m: map<string, seq<Coord>>)
    ensures p.patterns.Keys <= m.Keys
    ensures p.name != "" && p.coords != [] ==> p.name in m && m[p.name] == p.coords
    ensures forall n :: n in m && (n != p.name || p.name == "" || p.coords == []) ==>
      n in p.patterns && m[n] == p.patterns[n]
  {
    if p.name != "" && p.coords != [] then p.patterns[p.name := p.coords] else p.patterns
  }

  /** A line the loop takes for a header. */
  predicate IsHeader(line: string) {
    StartsWith(Strip(line), HeaderPrefix)
  }

  /** One iteration of the loop of load_patterns. The name is the text after
      the first ':' of the line, which is the prefix's own colon. */
  function Step(p: Parser, line: string): Parser {
    var s := Strip(line);
    if s == "" then p
    else if StartsWith(s, HeaderPrefix) then Parser(Flush(p), Strip(s[|HeaderPrefix|..]), [])
    else match ParseCoord(s)
      case Some(c) => p.(coords := p.coords + [c])
      case None => p
  }

  /** What one line does: a blank line nothing; a header stores the open
      block if it is named and non-empty and opens an empty block under a
      stripped name; any other line keeps the dictionary and the name and
      appends at most one pair. */
  lemma StepEffect(p: Parser, line: string)
    ensures Strip(line) == "" ==> Step(p, line) == p
    ensures IsHeader(line) ==> (Step(p, line).patterns == Flush(p)
      && IsStripped(Step(p, line).name) && Step(p, line).coords == [])
    ensures !IsHeader(line) ==> (Step(p, line).patterns == p.patterns && Step(p, line).name == p.name
      && |p.coords| <= |Step(p, line).coords| <= |p.coords| + 1
      && Step(p, line).coords[..|p.coords|] == p.coords)
  {
    var s := Strip(line);
    if s != "" && StartsWith(s, HeaderPrefix) {
      StripResult(s[|HeaderPrefix|..]);
    }
  }

  /** Only named, non-empty blocks are ever stored. */
  predicate OnlyNamedBlocks(m: map<string, seq<Coord>>) {
    forall n :: n in m ==> n != "" && m[n] != []
  }

  /** The state after feeding `lines` to the loop, one after another. */
  function Feed(p: Parser, lines: seq<string>): (r: Parser)
    ensures OnlyNamedBlocks(p.patterns) ==> OnlyNamedBlocks(r.patterns)
  {
    if lines == [] then p else Step(Feed(p, lines[..|lines| - 1]), lines[|lines| - 1])
  }

  /** load_patterns without the file: run the loop, then flush the last block. */
  function Decode(lines: seq<string>): (patterns: map<string, seq<Coord>>)
    ensures OnlyNamedBlocks(patterns)
  {
    Flush(Feed(Start, lines))
  }

  /** load_patterns(filename) over the lines of the file. */
  method LoadPatterns(lines: seq<string>) returns (patterns: map<string, seq<Coord>>)
    ensures patterns == Decode(lines)
  {
    patterns := map[];
    var currentName, coords := "", [];
    for k := 0 to |lines|
      invariant Feed(Start, lines[..k]) == Parser(patterns, currentName, coords)
    {
      assert lines[..k + 1][..k] == lines[..k];
      var line := Strip(lines[k]);
      if line == "" {
        continue;
      }
      if StartsWith(line, HeaderPrefix) {
        if currentName != "" && coords != [] {
          patterns := patterns[currentName := coords];
        }
        currentName := Strip(line[|HeaderPrefix|..]);
        coords := [];
      } else {
        var c := ParseCoord(line);
        if c.Some? {
          coords := coords + [c.value];
        }
      }
    }
    assert lines[..|lines|] == lines;
    if currentName != "" && coords != [] {
      patterns := patterns[currentName := coords];
    }
  }

  // ------------------------------------------------------- decoding lemmas

  lemma {:induction false} FeedAppend(p: Parser, xs: seq<string>, ys: seq<string>)
    ensures Feed(p, xs + ys) == Feed(Feed(p, xs), ys)
  {
    if ys == [] {
      assert xs + ys == xs;
    } else {
      var last := |ys| - 1;
      assert (xs + ys)[..|xs + ys| - 1] == xs + ys[..last];
      FeedAppend(p, xs, ys[..last]);
    }
  }

  /** A line the loop passes over: blank, or neither a header nor two ints. */
  predicate Ignored(line: string) {
    var s := Strip(line);
    s == "" || (!StartsWith(s, HeaderPrefix) && ParseCoord(s).None?)
  }

  /** Blank and malformed lines, wherever they stand, change nothing. */
  lemma IgnoredLineChangesNothing(xs: seq<string>, line: string, ys: seq<string>)
    requires Ignored(line)
    ensures Decode(xs + [line] + ys) == Decode(xs + ys)
  {
    FeedAppend(Start, xs + [line], ys);
    FeedAppend(Start, xs, ys);
    assert (xs + [line])[..|xs|] == xs;
  }

  /** A run of such lines leaves the loop state as it was. */
  lemma {:induction false} FeedIgnored(p: Parser, ys: seq<string>)
    requires forall k :: 0 <= k < |ys| ==> Ignored(ys[k])
    ensures Feed(p, ys) == p
  {
    if ys != [] {
      var last := |ys| - 1;
      FeedIgnored(p, ys[..last]);
      assert Ignored(ys[last]);
    }
  }

  /** Any run of such lines, wherever it stands, changes nothing either. */
  lemma {:induction false} IgnoredLinesChangeNothing(xs: seq<string>, ys: seq<string>, zs: seq<string>)
    requires forall k :: 0 <= k < |ys| ==> Ignored(ys[k])
    ensures Decode(xs + ys + zs) == Decode(xs + zs)
  {
    FeedAppend(Start, xs + ys, zs);
    FeedAppend(Start, xs, ys);
    FeedIgnored(Feed(Start, xs), ys);
    FeedAppend(Start, xs, zs);
  }

  /** States that differ only in coordinates gathered under no name. */
  predicate SameUpToUnnamed(p: Parser, q: Parser) {
    p.patterns == q.patterns && p.name == q.name && (p.name == "" || p.coords == q.coords)
  }

  lemma {:induction false} FeedSameUpToUnnamed(p: Parser, q: Parser, lines: seq<string>)
    requires SameUpToUnnamed(p, q)
    ensures SameUpToUnnamed(Feed(p, lines), Feed(q, lines))
    ensures Flush(Feed(p, lines)) == Flush(Feed(q, lines))
  {
    if lines != [] {
      FeedSameUpToUnnamed(p, q, lines[..|lines| - 1]);
    }
  }

  /** Before the first header nothing has a name and nothing is stored. */
  lemma {:induction false} FeedHeaderless(lines: seq<string>)
    requires forall k :: 0 <= k < |lines| ==> !IsHeader(lines[k])
    ensures Feed(Start, lines).patterns == map[] && Feed(Start, lines).name == ""
  {
    if lines != [] {
      FeedHeaderless(lines[..|lines| - 1]);
    }
  }

  /** Coordinates that come before any header are never stored. */
  lemma HeaderlessPrefixIsDropped(xs: seq<string>, ys: seq<string>)
    requires forall k :: 0 <= k < |xs| ==> !IsHeader(xs[k])
    ensures Decode(xs + ys) == Decode(ys)
  {
    FeedHeaderless(xs);
    FeedAppend(Start, xs, ys);
    assert [] + ys == ys;
    FeedSameUpToUnnamed(Feed(Start, xs), Start, ys);
  }

  /** A header line flushes the block before it and opens an empty one
      named by the text after the prefix's colon, whitespace trimmed: any
      whitespace around the line, between the colon and the name, and
      after the name is dropped. */
  lemma StepHeader(p: Parser, u: string, v: string, name: string, w: string)
    requires AllSpace(u) && AllSpace(v) && AllSpace(w) && IsStripped(name)
    ensures Step(p, u + HeaderPrefix + v + name + w) == Parser(Flush(p), name, [])
  {
    var line := u + HeaderPrefix + v + name + w;
    assert IsStripped(HeaderPrefix) && HeaderPrefix[..|HeaderPrefix|] == HeaderPrefix;
    if name == [] {
      assert line == u + HeaderPrefix + (v + w);
      assert AllSpace(v + w);
      StripSpaces(u, HeaderPrefix, v + w);
      assert HeaderPrefix[|HeaderPrefix|..] == [];
    } else {
      var s := HeaderPrefix + v + name;
      assert s[0] == '#' && s[|s| - 1] == name[|name| - 1];
      assert line == u + s + w;
      StripSpaces(u, s, w);
      assert s[..|HeaderPrefix|] == HeaderPrefix;
      assert s[|HeaderPrefix|..] == v + name + [];
      StripSpaces(v, name, []);
    }
  }

  /** Reading back a written coordinate line gives the pair again. */
  lemma ParseCoordLine(c: Coord)
    ensures ParseCoord(CoordLine(c)) == Some(c)
  {
    SplitPair(IntToString(c.0), ',', IntToString(c.1));
    IntToStringRoundTrip(c.0);
    IntToStringRoundTrip(c.1);
  }

  /** A line the loop reads as the coordinate pair c. */
  predicate ReadsAsCoord(line: string, c: Coord) {
    var s := Strip(line);
    s != "" && !StartsWith(s, HeaderPrefix) && ParseCoord(s) == Some(c)
  }

  /** A stripped line that does not start with '#' and parses as c is read
      as c. */
  lemma StrippedPairIsRead(line: string, c: Coord)
    requires |line| >= 1 && IsStripped(line) && line[0] != '#'
    requires ParseCoord(line) == Some(c)
    ensures ReadsAsCoord(line, c)
  {
    StripKeepsStripped(line);
    assert |line| < |HeaderPrefix| || line[..|HeaderPrefix|][0] == line[0];
  }

  /** A written coordinate line is read back as its pair. */
  lemma CoordLineReadsBack(c: Coord)
    ensures ReadsAsCoord(CoordLine(c), c)
  {
    ParseCoordLine(c);
    StrippedPairIsRead(CoordLine(c), c);
  }

  /** Each line is read as the pair at the same place in cs. */
  predicate ReadAsPairs(lines: seq<string>, cs: seq<Coord>) {
    |lines| == |cs| &&
    (lines == [] ||
     (ReadAsPairs(lines[..|lines| - 1], cs[..|cs| - 1]) && ReadsAsCoord(lines[|lines| - 1], cs[|cs| - 1])))
  }

  /** Lines read as coordinates extend the current block, nothing else. */
  lemma {:induction false} FeedCoords(p: Parser, lines: seq<string>, cs: seq<Coord>)
    requires ReadAsPairs(lines, cs)
    ensures Feed(p, lines) == p.(coords := p.coords + cs)
  {
    if lines != [] {
      var last := |lines| - 1;
      FeedCoords(p, lines[..last], cs[..last]);
      assert cs[..last] + [cs[last]] == cs;
    }
  }

  /** Every line save_pattern writes for a list of pairs reads back as its pair. */
  lemma {:induction false} CoordLinesReadBack(cs: seq<Coord>)
    ensures ReadAsPairs(CoordLines(cs), cs)
  {
    if cs != [] {
      var last, lines := |cs| - 1, CoordLines(cs);
      CoordLinesReadBack(cs[..last]);
      assert lines[..last] == CoordLines(cs[..last]);
      CoordLineReadsBack(cs[last]);
      assert lines[last] == CoordLine(cs[last]);
    }
  }

  /** Appending a block: a header and lines read as the pairs cs store cs
      under the header's name, replacing an earlier block of that name,
      unless the name or the block is empty, in which case nothing changes. */
  lemma AppendBlock(xs: seq<string>, name: string, lines: seq<string>, cs: seq<Coord>)
    requires IsStripped(name)
    requires ReadAsPairs(lines, cs)
    ensures Decode(xs + [HeaderLine(name)] + lines) ==
      if name == "" || cs == [] then Decode(xs) else Decode(xs)[name := cs]
  {
    var header := xs + [HeaderLine(name)];
    var started := Parser(Decode(xs), name, []);
    FeedHeader(xs, name);
    FeedCoords(started, lines, cs);
    assert [] + cs == cs;
    FeedAppend(Start, header, lines);
    assert Feed(Start, header + lines) == Parser(Decode(xs), name, cs);
  }

  /** Lines each read as the pair at the same place are read as the list. */
  lemma {:induction false} ReadAsPairsAt(lines: seq<string>, cs: seq<Coord>)
    requires |lines| == |cs|
    requires forall k :: 0 <= k < |cs| ==> ReadsAsCoord(lines[k], cs[k])
    ensures ReadAsPairs(lines, cs)
  {
    if lines != [] {
      var last := |lines| - 1;
      ReadAsPairsAt(lines[..last], cs[..last]);
    }
  }

  /** A file of one named, non-empty block loads as that block alone. */
  lemma LoadBlock(file: seq<string>, name: string, lines: seq<string>, cs: seq<Coord>)
    requires file == [HeaderLine(name)] + lines
    requires IsStripped(name) && name != "" && cs != []
    requires ReadAsPairs(lines, cs)
    ensures Decode(file) == map[name := cs]
  {
    AppendBlock([], name, lines, cs);
    assert [] + [HeaderLine(name)] == [HeaderLine(name)];
    assert Decode([]) == map[] by {
      assert Feed(Start, []) == Start;
    }
  }

  /** After a header the dictionary is what decoding the lines before it
      gives, and the new block is empty. */
  lemma FeedHeader(xs: seq<string>, name: string)
    requires IsStripped(name)
    ensures Feed(Start, xs + [HeaderLine(name)]) == Parser(Decode(xs), name, [])
  {
    assert (xs + [HeaderLine(name)])[..|xs|] == xs;
    assert HeaderLine(name) == [] + HeaderPrefix + " " + name + [];
    assert AllSpace(" ");
    StepHeader(Feed(Start, xs), [], " ", name, []);
  }

  /** Saving and loading: the loaded dictionary holds exactly the saved
      board's live cells, in row-major order, under "Saved"; an all-dead
      board loads as the empty dictionary. */
  lemma RoundTrip(b: Board)
    ensures Decode(Encode(b)) ==
      if LiveCells(b) == [] then map[] else map[SavedName := LiveCells(b)]
  {
    assert IsStripped(SavedName);
    CoordLinesReadBack(LiveCells(b));
    AppendBlock([], SavedName, CoordLines(LiveCells(b)), LiveCells(b));
    assert Encode(b) == [] + [HeaderLine(SavedName)] + CoordLines(LiveCells(b));
    assert Feed(Start, []) == Start;
  }
}

=== FILE: engine.dfy ===
// The Game of Life engine of life.py: toroidal neighbour counting
// (count_neighbors) and the synchronous B3/S23 generation step (next_gen).

module Engine {
  import opened Grid

  /** A board the neighbour count can run on: the source takes both indices
      modulo H and W, so neither may be zero. */
  predicate Countable(b: Board) {
    IsBoard(b) && |b[0]| >= 1
  }

  /** The cell at offset (dx, dy) from (x, y), both indices wrapped around. */
  function WrappedCell(b: Board, x: int, y: int, dx: int, dy: int): int
    requires Countable(b)
  {
    b[(x + dx) % |b|][(y + dy) % |b[0]|]
  }

  /** The live neighbours of (x, y): the sum over the eight offsets other than
      (0, 0), each counted once even where two of them wrap to one cell. */
  function Neighbors(b: Board, x: int, y: int): (n: int)
    requires Countable(b)
    ensures IsBinary(b) ==> 0 <= n <= 8
  {
    WrappedCell(b, x, y, -1, -1) + WrappedCell(b, x, y, -1, 0) + WrappedCell(b, x, y, -1, 1)
    + WrappedCell(b, x, y, 0, -1) + WrappedCell(b, x, y, 0, 1)
    + WrappedCell(b, x, y, 1, -1) + WrappedCell(b, x, y, 1, 0) + WrappedCell(b, x, y, 1, 1)
  }

  /** The offsets both loops of count_neighbors run over. */
  const Offsets: seq<int> := [-1, 0, 1]

  /** What one (dx, dy) step of count_neighbors adds: nothing for (0, 0). */
  ghost function Contribution(b: Board, x: int, y: int, dx: int, dy: int): int
    requires Countable(b)
  {
    if dx == 0 && dy == 0 then 0 else WrappedCell(b, x, y, dx, dy)
  }

  /** What the inner loop has added after its first `c` offsets for this dx. */
  ghost function RowSum(b: Board, x: int, y: int, dx: int, c: nat): int
    requires Countable(b) && c <= |Offsets|
  {
    if c == 0 then 0 else RowSum(b, x, y, dx, c - 1) + Contribution(b, x, y, dx, Offsets[c - 1])
  }

  /** What the outer loop has added after its first `a` offsets. */
  ghost function Scanned(b: Board, x: int, y: int, a: nat): int
    requires Countable(b) && a <= |Offsets|
  {
    if a == 0 then 0 else Scanned(b, x, y, a - 1) + RowSum(b, x, y, Offsets[a - 1], |Offsets|)
  }

  /** The two loops together add exactly the eight neighbours. */
  lemma ScannedAll(b: Board, x: int, y: int)
    requires Countable(b)
    ensures Scanned(b, x, y, |Offsets|) == Neighbors(b, x, y)
  {
    forall dx | -1 <= dx <= 1
      ensures RowSum(b, x, y, dx, |Offsets|) ==
        Contribution(b, x, y, dx, -1) + Contribution(b, x, y, dx, 0) + Contribution(b, x, y, dx, 1)
    {
      assert RowSum(b, x, y, dx, 1) == Contribution(b, x, y, dx, -1);
      assert RowSum(b, x, y, dx, 2) == RowSum(b, x, y, dx, 1) + Contribution(b, x, y, dx, 0);
    }
    assert Scanned(b, x, y, 1) == RowSum(b, x, y, -1, |Offsets|);
    assert Scanned(b, x, y, 2) == Scanned(b, x, y, 1) + RowSum(b, x, y, 0, |Offsets|);
  }

  /** count_neighbors(board, x, y): accumulates the wrapped cells in two
      nested loops over the offsets, skipping (0, 0). */
  method CountNeighbors(board: array2<int>, x: int, y: int) returns (total: int)
    requires board.Length0 >= 1 && board.Length1 >= 1
    ensures total == Neighbors(Snapshot(board), x, y)
  {
    ghost var b := Snapshot(board);
    var h, w := board.Length0, board.Length1;
    total := 0;
    for a := 0 to |Offsets|
      invariant total == Scanned(b, x, y, a)
    {
      var dx := Offsets[a];
      for c := 0 to |Offsets|
        invariant total == Scanned(b, x, y, a) + RowSum(b, x, y, dx, c)
      {
        var dy := Offsets[c];
        if dx == 0 && dy == 0 {
          continue;
        }
        var nx, ny := (x + dx) % h, (y + dy) % w;
        assert board[nx, ny] == Contribution(b, x, y, dx, dy);
        total := total + board[nx, ny];
      }
    }
    ScannedAll(b, x, y);
  }

  /** The new value of cell (i, j): alive with 2 or 3 neighbours survives,
      dead with exactly 3 is born, anything else is dead. */
  function NextCell(b: Board, i: int, j: int): (r: int)
    requires Countable(b) && 0 <= i < |b| && 0 <= j < |b[0]|
    ensures r == 0 || r == 1
    ensures r == 1 ==> 2 <= Neighbors(b, i, j) <= 3
    ensures Neighbors(b, i, j) == 3 && (b[i][j] == 0 || b[i][j] == 1) ==> r == 1
  {
    Rule(b[i][j], Neighbors(b, i, j))
  }

  /** The if/elif of next_gen on a cell value and its neighbour count:
      fewer than two or more than three neighbours kill, three bring a
      0/1 cell to life or keep it alive, and two keep it as it is. */
  function Rule(cell: int, n: int): (r: int)
    ensures r == 0 || r == 1
    ensures n < 2 || n > 3 ==> r == 0
    ensures n == 3 && (cell == 0 || cell == 1) ==> r == 1
    ensures n == 2 && (cell == 0 || cell == 1) ==> r == cell
  {
    if cell == 1 && (n == 2 || n == 3) then 1
    else if cell == 0 && n == 3 then 1
    else 0
  }

  /** next_gen as a value: every cell decided from the same input board. */
  function NextBoard(b: Board): (r: Board)
    requires IsBoard(b)
    ensures IsBoard(r) && |r| == |b| && |r[0]| == |b[0]|
    ensures IsBinary(r)
  {
    seq(|b|, i requires 0 <= i < |b| => seq(|b[0]|, j requires 0 <= j < |b[0]| => NextCell(b, i, j)))
  }

  /** next_gen(board): fills a fresh board cell by cell, counting neighbours
      on the input board, which it never writes. */
  method NextGen(board: array2<int>) returns (newBoard: array2<int>)
    requires board.Length0 >= 1
    ensures fresh(newBoard)
    ensures Snapshot(newBoard) == NextBoard(Snapshot(board))
  {
    ghost var b := Snapshot(board);
    var h, w := board.Length0, board.Length1;
    newBoard := NewBoard(w, h);
    for i := 0 to h
      invariant forall r, c :: 0 <= r < h && 0 <= c < w ==>
        newBoard[r, c] == if r < i then NextCell(b, r, c) else 0
    {
      for j := 0 to w
        invariant forall r, c :: 0 <= r < h && 0 <= c < w ==>
          newBoard[r, c] == if r < i || (r == i && c < j) then NextCell(b, r, c) else 0
      {
        var neighbors := CountNeighbors(board, i, j);
        if board[i, j] == 1 && (neighbors == 2 || neighbors == 3) {
          newBoard[i, j] := 1;
        } else if board[i, j] == 0 && neighbors == 3 {
          newBoard[i, j] := 1;
        }
      }
    }
    SameBoard(Snapshot(newBoard), NextBoard(b));
  }

  /** B3/S23 on a 0/1 board: a cell of the next generation is alive exactly
      when it was alive with 2 or 3 live neighbours or dead with exactly 3. */
  lemma LifeRule(b: Board, i: int, j: int)
    requires Countable(b) && IsBinary(b) && 0 <= i < |b| && 0 <= j < |b[0]|
    ensures NextBoard(b)[i][j] == 1 <==>
      (b[i][j] == 1 && (Neighbors(b, i, j) == 2 || Neighbors(b, i, j) == 3))
      || (b[i][j] == 0 && Neighbors(b, i, j) == 3)
    ensures NextBoard(b)[i][j] == 0 <==>
      (b[i][j] == 1 && Neighbors(b, i, j) != 2 && Neighbors(b, i, j) != 3)
      || (b[i][j] == 0 && Neighbors(b, i, j) != 3)
  {
  }

  /** The index before k on a ring of n places: 0 is preceded by n - 1. */
  function Prev(k: int, n: int): int {
    if k == 0 then n - 1 else k - 1
  }

  /** The index after k on a ring of n places: n - 1 is followed by 0. */
  function Next(k: int, n: int): int {
    if k == n - 1 then 0 else k + 1
  }

  /** Stepping one place back or forward with `%` is Prev and Next. */
  lemma StepIsWrap(k: int, n: int)
    requires 0 <= k < n
    ensures (k + -1) % n == Prev(k, n) && (k + 0) % n == k && (k + 1) % n == Next(k, n)
  {
  }

  /** The eight neighbours of (x, y) on the torus, written without `%`:
      the rows above and below and the columns left and right, the first
      row's upper neighbour being the last row and the first column's left
      neighbour the last column. */
  function TorusNeighbors(b: Board, x: int, y: int): int
    requires Countable(b) && 0 <= x < |b| && 0 <= y < |b[0]|
  {
    var h, w := |b|, |b[0]|;
    b[Prev(x, h)][Prev(y, w)] + b[Prev(x, h)][y] + b[Prev(x, h)][Next(y, w)]
    + b[x][Prev(y, w)] + b[x][Next(y, w)]
    + b[Next(x, h)][Prev(y, w)] + b[Next(x, h)][y] + b[Next(x, h)][Next(y, w)]
  }

  /** count_neighbors on the board is the torus neighbourhood. */
  lemma NeighborsOnTorus(b: Board, x: int, y: int)
    requires Countable(b) && 0 <= x < |b| && 0 <= y < |b[0]|
    ensures Neighbors(b, x, y) == TorusNeighbors(b, x, y)
  {
    StepIsWrap(x, |b|);
    StepIsWrap(y, |b[0]|);
  }

  /** A generation computed on the torus directly, cell by cell. */
  function TorusNext(b: Board): (r: Board)
    requires Countable(b)
    ensures |r| == |b| && forall i :: 0 <= i < |r| ==> |r[i]| == |b[0]|
  {
    seq(|b|, i requires 0 <= i < |b| =>
      seq(|b[0]|, j requires 0 <= j < |b[0]| => Rule(b[i][j], TorusNeighbors(b, i, j))))
  }

  /** next_gen agrees with the torus computation on every board it accepts
      with a column. */
  lemma NextBoardOnTorus(b: Board)
    requires Countable(b)
    ensures NextBoard(b) == TorusNext(b)
  {
    forall i, j | 0 <= i < |b| && 0 <= j < |b[0]| {
      NeighborsOnTorus(b, i, j);
    }
    SameBoard(NextBoard(b), TorusNext(b));
  }

  /** The wrap at the origin: (0, 0) sees the last row and the last column,
      its diagonal neighbour being (H-1, W-1). */
  lemma NeighborsAtOrigin(b: Board)
    requires Countable(b)
    ensures Neighbors(b, 0, 0) ==
      b[|b| - 1][|b[0]| - 1] + b[|b| - 1][0] + b[|b| - 1][1 % |b[0]|]
      + b[0][|b[0]| - 1] + b[0][1 % |b[0]|]
      + b[1 % |b|][|b[0]| - 1] + b[1 % |b|][0] + b[1 % |b|][1 % |b[0]|]
  {
    assert (0 + -1) % |b| == |b| - 1;
    assert (0 + -1) % |b[0]| == |b[0]| - 1;
  }

  /** On a 1 x 1 torus all eight offsets wrap onto the cell itself and each
      is counted: the cell is its own neighbour eight times. */
  lemma NeighborsOnSingleCell(b: Board)
    requires Countable(b) && |b| == 1 && |b[0]| == 1
    ensures Neighbors(b, 0, 0) == 8 * b[0][0]
  {
    assert forall k: int :: k % 1 == 0;
  }
}

=== FILE: grid.dfy ===
// The board of life.py: a height x width matrix of cell values (0 dead, 1 alive).
// The driver's live board and the fresh boards that next_gen and apply_pattern
// fill are mutable matrices (`array2<int>`); what is said about them is said
// about their value, a `Board` (one sequence per row).

module Grid {

  type Board = seq<seq<int>>

  /** A (row, col) pair, as patterns list them; not necessarily on the board. */
  type Coord = (int, int)

  /** Every row has the length of the first one (vacuously true for no rows). */
  predicate Rectangular(b: Board) {
    forall i :: 0 <= i < |b| ==> |b[i]| == |b[0]|
  }

  /** A board the engine can index: at least one row (the source reads
      `len(board[0])`) and all rows of the same width. */
  predicate IsBoard(b: Board) {
    |b| >= 1 && Rectangular(b)
  }

  /** Every cell is 0 or 1. */
  predicate IsBinary(b: Board) {
    forall i, j :: 0 <= i < |b| && 0 <= j < |b[i]| ==> b[i][j] == 0 || b[i][j] == 1
  }

  /** The number of iterations of Python's `range(n)`: a negative n gives none. */
  function RangeLength(n: int): nat {
    if n < 0 then 0 else n
  }

  /** make_board(width, height): `height` rows of `width` dead cells. */
  function MakeBoard(width: int, height: int): (b: Board)
    ensures |b| == RangeLength(height)
    ensures forall i :: 0 <= i < |b| ==> |b[i]| == RangeLength(width)
    ensures forall i, j :: 0 <= i < |b| && 0 <= j < |b[i]| ==> b[i][j] == 0
  {
    seq(RangeLength(height), _ => seq(RangeLength(width), _ => 0))
  }

  /** The value held by a mutable board. */
  function Snapshot(a: array2<int>): (b: Board)
    reads a
    ensures |b| == a.Length0
    ensures forall i :: 0 <= i < |b| ==> |b[i]| == a.Length1
    ensures forall i, j :: 0 <= i < a.Length0 && 0 <= j < a.Length1 ==> b[i][j] == a[i, j]
  {
    seq(a.Length0, i requires 0 <= i < a.Length0 reads a =>
      seq(a.Length1, j requires 0 <= j < a.Length1 reads a => a[i, j]))
  }

  /** Two boards with the same shape and the same cells are the same board. */
  lemma SameBoard(x: Board, y: Board)
    requires |x| == |y|
    requires forall i :: 0 <= i < |x| ==> |x[i]| == |y[i]|
    requires forall i, j :: 0 <= i < |x| && 0 <= j < |x[i]| ==> x[i][j] == y[i][j]
    ensures x == y
  {
    forall i | 0 <= i < |x|
      ensures x[i] == y[i]
    {
      assert forall j :: 0 <= j < |x[i]| ==> x[i][j] == y[i][j];
    }
  }

  /** make_board as the engine uses it: a fresh mutable board, all dead. */
  method NewBoard(width: int, height: int) returns (a: array2<int>)
    ensures fresh(a)
    ensures a.Length0 == RangeLength(height) && a.Length1 == RangeLength(width)
    ensures Snapshot(a) == MakeBoard(width, height)
  {
    a := new int[RangeLength(height), RangeLength(width)]((i, j) => 0);
    SameBoard(Snapshot(a), MakeBoard(width, height));
  }
}

=== FILE: pytext.dfy ===
// The parts of Python's string built-ins that the pattern codec of life.py
// relies on: str.strip(), str.split(","), int(text) and f"{n}".

module PyText {

  datatype Option<T> = None | Some(value: T)

  /** str.isspace() on one character, for the ASCII range: tab, line feed,
      vertical tab, form feed, carriage return, the four separators 0x1C-0x1F
      and the space. */
  predicate IsSpace(c: char) {
    9 <= c as int <= 13 || 28 <= c as int <= 32
  }

  predicate IsDigit(c: char) {
    '0' <= c <= '9'
  }

  /** Every character is whitespace (vacuously true for ""). */
  predicate AllSpace(s: string) {
    forall k :: 0 <= k < |s| ==> IsSpace(s[k])
  }

  /** Leading whitespace removed. */
  function TrimStart(s: string): (r: string)
    ensures r == [] || !IsSpace(r[0])
  {
    if s != [] && IsSpace(s[0]) then TrimStart(s[1..]) else s
  }

  /** Trailing whitespace removed. */
  function TrimEnd(s: string): (r: string)
    ensures r == [] || !IsSpace(r[|r| - 1])
  {
    if s != [] && IsSpace(s[|s| - 1]) then TrimEnd(s[..|s| - 1]) else s
  }

  /** Neither end is whitespace: str.strip() leaves the text as it is. */
  predicate IsStripped(s: string) {
    s == [] || (!IsSpace(s[0]) && !IsSpace(s[|s| - 1]))
  }

  /** str.strip() with no argument. */
  function Strip(s: string): string {
    TrimEnd(TrimStart(s))
  }

  /** TrimStart keeps a suffix of s. */
  lemma {:induction false} TrimStartSuffix(s: string)
    ensures |TrimStart(s)| <= |s| && TrimStart(s) == s[|s| - |TrimStart(s)|..]
  {
    if s != [] && IsSpace(s[0]) {
      TrimStartSuffix(s[1..]);
    }
  }

  /** TrimEnd keeps a prefix of s. */
  lemma {:induction false} TrimEndPrefix(s: string)
    ensures |TrimEnd(s)| <= |s| && TrimEnd(s) == s[..|TrimEnd(s)|]
  {
    if s != [] && IsSpace(s[|s| - 1]) {
      TrimEndPrefix(s[..|s| - 1]);
    }
  }

  /** What str.strip() returns has whitespace at neither end and is no
      longer than s. */
  lemma StripResult(s: string)
    ensures IsStripped(Strip(s)) && |Strip(s)| <= |s|
  {
    TrimStartSuffix(s);
    TrimEndPrefix(TrimStart(s));
  }

  lemma StripKeepsStripped(s: string)
    requires IsStripped(s)
    ensures Strip(s) == s
  {
  }

  /** Leading whitespace in front of text that starts with none is all
      TrimStart removes. */
  lemma {:induction false} TrimStartSpaces(u: string, t: string)
    requires AllSpace(u) && (t == [] || !IsSpace(t[0]))
    ensures TrimStart(u + t) == t
  {
    if u == [] {
      assert u + t == t;
    } else {
      assert (u + t)[1..] == u[1..] + t;
      TrimStartSpaces(u[1..], t);
    }
  }

  /** Trailing whitespace after text that ends in none is all TrimEnd
      removes. */
  lemma {:induction false} TrimEndSpaces(t: string, w: string)
    requires AllSpace(w) && (t == [] || !IsSpace(t[|t| - 1]))
    ensures TrimEnd(t + w) == t
  {
    if w == [] {
      assert t + w == t;
    } else {
      assert (t + w)[..|t + w| - 1] == t + w[..|w| - 1];
      TrimEndSpaces(t, w[..|w| - 1]);
    }
  }

  /** str.strip() removes exactly the whitespace around stripped text. */
  lemma StripSpaces(u: string, t: string, w: string)
    requires AllSpace(u) && AllSpace(w) && IsStripped(t)
    ensures Strip(u + t + w) == t
  {
    if t == [] {
      assert u + t + w == (u + w) + [];
      assert AllSpace(u + w);
      TrimStartSpaces(u + w, []);
    } else {
      assert u + t + w == u + (t + w);
      TrimStartSpaces(u, t + w);
      TrimEndSpaces(t, w);
    }
  }

  /** str.split(sep): the pieces between the separators, one more than
      there are separators, none of them holding a separator. */
  function Split(s: string, sep: char): (parts: seq<string>)
    ensures |parts| >= 1
  {
    if s == [] then [""]
    else
      var rest := Split(s[1..], sep);
      if s[0] == sep then [""] + rest else [[s[0]] + rest[0]] + rest[1..]
  }

  /** One piece more than there are separators, and no piece holds one. */
  lemma {:induction false} SplitCounts(s: string, sep: char)
    ensures |Split(s, sep)| == multiset(s)[sep] + 1
    ensures forall k :: 0 <= k < |Split(s, sep)| ==> sep !in Split(s, sep)[k]
  {
    if s != [] {
      SplitCounts(s[1..], sep);
      assert s == [s[0]] + s[1..];
    }
  }

  /** Text without the separator splits into itself alone. */
  lemma {:induction false} SplitWithoutSep(s: string, sep: char)
    requires sep !in s
    ensures Split(s, sep) == [s]
  {
    if s != [] {
      SplitWithoutSep(s[1..], sep);
      assert [s[0]] + s[1..] == s;
    }
  }

  /** The first separator ends the first piece. */
  lemma {:induction false} SplitAtFirstSep(a: string, sep: char, b: string)
    requires sep !in a
    ensures Split(a + [sep] + b, sep) == [a] + Split(b, sep)
  {
    var s := a + [sep] + b;
    if a == [] {
      assert s[1..] == b;
    } else {
      assert s[1..] == a[1..] + [sep] + b;
      SplitAtFirstSep(a[1..], sep, b);
      assert [a[0]] + a[1..] == a;
    }
  }

  /** `a,b` with no comma in either part splits into exactly [a, b]. */
  lemma SplitPair(a: string, sep: char, b: string)
    requires sep !in a && sep !in b
    ensures Split(a + [sep] + b, sep) == [a, b]
  {
    SplitAtFirstSep(a, sep, b);
    SplitWithoutSep(b, sep);
  }

  function DigitValue(c: char): nat
    requires IsDigit(c)
  {
    c as int - '0' as int
  }

  function DigitChar(d: nat): (c: char)
    requires d < 10
    ensures IsDigit(c) && DigitValue(c) == d
  {
    ('0' as int + d) as char
  }

  /** A non-empty run of decimal digits. */
  predicate IsDigits(s: string) {
    |s| >= 1 && forall k :: 0 <= k < |s| ==> IsDigit(s[k])
  }

  /** The number a run of decimal digits denotes (leading zeros allowed). */
  function DigitsValue(s: string): nat
    requires forall k :: 0 <= k < |s| ==> IsDigit(s[k])
  {
    if s == [] then 0 else DigitsValue(s[..|s| - 1]) * 10 + DigitValue(s[|s| - 1])
  }

  /** The decimal text of a natural number: digits only, without leading
      zeros. */
  function NatToString(n: nat): (s: string)
    ensures |s| >= 1 && forall k :: 0 <= k < |s| ==> IsDigit(s[k])
    ensures s[0] == '0' ==> n == 0
  {
    if n < 10 then [DigitChar(n)] else NatToString(n / 10) + [DigitChar(n % 10)]
  }

  /** f"{n}": a minus sign exactly for a negative n, then decimal digits. */
  function IntToString(n: int): (s: string)
    ensures |s| >= 1 && (s[0] == '-' <==> n < 0)
    ensures forall k :: 0 <= k < |s| ==> IsDigit(s[k]) || (k == 0 && s[k] == '-')
    ensures IsDigit(s[|s| - 1])
  {
    if n < 0 then "-" + NatToString(-n) else NatToString(n)
  }

  /** The decimal text of n is digits only, and they denote n. */
  lemma {:induction false} NatToStringRoundTrip(n: nat)
    ensures IsDigits(NatToString(n)) && DigitsValue(NatToString(n)) == n
  {
    if n >= 10 {
      NatToStringRoundTrip(n / 10);
      var s := NatToString(n);
      assert s[..|s| - 1] == NatToString(n / 10);
    }
  }

  /** int(text) on a string: surrounding whitespace, an optional sign and at
      least one decimal digit; anything else is a ValueError, here None. */
  function ParseInt(s: string): (r: Option<int>)
    ensures r.Some? ==> |Strip(s)| >= 1 && IsDigit(Strip(s)[|Strip(s)| - 1])
    ensures r.Some? && r.value < 0 ==> Strip(s)[0] == '-'
    ensures r.Some? ==> forall k :: 0 <= k < |Strip(s)| ==>
      IsDigit(Strip(s)[k]) || (k == 0 && (Strip(s)[0] == '-' || Strip(s)[0] == '+') && |Strip(s)| >= 2)
  {
    ParseSigned(Strip(s))
  }

  /** int() once the surrounding whitespace is gone. */
  function ParseSigned(t: string): Option<int> {
    if |t| >= 1 && (t[0] == '-' || t[0] == '+') then
      if IsDigits(t[1..]) then
        var v: int := DigitsValue(t[1..]);
        Some(if t[0] == '-' then -v else v)
      else None
    else if IsDigits(t) then Some(DigitsValue(t) as int)
    else None
  }

  /** int() accepts whitespace, an optional sign, digits and whitespace,
      and gives the digits' value, negated after a minus sign. */
  lemma ParseIntSpaced(u: string, sg: string, d: string, w: string)
    requires AllSpace(u) && AllSpace(w) && IsDigits(d)
    requires sg == "" || sg == "+" || sg == "-"
    ensures ParseInt(u + sg + d + w) == Some(if sg == "-" then -(DigitsValue(d) as int) else DigitsValue(d) as int)
  {
    var t := sg + d;
    SignedDigits(sg, d);
    assert u + sg + d + w == u + t + w;
    StripSpaces(u, t, w);
  }

  /** An optional sign and digits are stripped text, read as the digits'
      value, negated after a minus sign. */
  lemma SignedDigits(sg: string, d: string)
    requires IsDigits(d) && (sg == "" || sg == "+" || sg == "-")
    ensures IsStripped(sg + d)
    ensures ParseSigned(sg + d) == Some(if sg == "-" then -(DigitsValue(d) as int) else DigitsValue(d) as int)
  {
    var t := sg + d;
    assert t[|t| - 1] == d[|d| - 1];
    if sg == "" {
      assert t == d;
    } else {
      assert t[0] == sg[0] && t[1..] == d;
    }
  }

  /** Reading back what f"{n}" wrote gives n again. */
  lemma IntToStringRoundTrip(n: int)
    ensures ParseInt(IntToString(n)) == Some(n)
  {
    if n < 0 {
      NegativeRoundTrip(n);
    } else {
      NatRoundTrip(n);
    }
  }

  lemma NatRoundTrip(n: nat)
    ensures ParseInt(NatToString(n)) == Some(n)
  {
    var d := NatToString(n);
    NatToStringRoundTrip(n);
    ParseIntSpaced("", "", d, "");
    assert "" + "" + d + "" == d;
  }

  lemma NegativeRoundTrip(n: int)
    requires n < 0
    ensures ParseInt("-" + NatToString(-n)) == Some(n)
  {
    var m: nat := -n;
    var d := NatToString(m);
    NatToStringRoundTrip(m);
    ParseIntSpaced("", "-", d, "");
    assert "" + "-" + d + "" == "-" + d;
    assert -(DigitsValue(d) as int) == n;
    assert NatToString(-n) == d;
  }
}

=== FILE: scenarios.dfy ===
// Worked examples: patterns the game ships with behave as Life says they
// must, and a pattern file with stray lines loads as its author meant.

module Scenarios {
  import opened Grid
  import opened Engine
  import opened PyText
  import opened Codec
  import opened Applier

  /** The value apply_pattern gives cell (x, y) for a list of pairs. */
  function Alive(coords: seq<Coord>, x: int, y: int): int {
    if (x, y) in coords then 1 else 0
  }

  /** Every cell of b is alive exactly when the list has its pair. */
  predicate Marks(b: Board, coords: seq<Coord>) {
    forall x, y :: 0 <= x < |b| && 0 <= y < |b[x]| ==> b[x][y] == Alive(coords, x, y)
  }

  /** The boards apply_pattern builds are marked by their lists. */
  lemma AppliedMarks(h: nat, w: nat, coords: seq<Coord>)
    ensures Marks(Applied(h, w, coords), coords)
  {
    forall x, y | 0 <= x < h && 0 <= y < w
      ensures Applied(h, w, coords)[x][y] == Alive(coords, x, y)
    {
      AppliedCell(h, w, coords, x, y);
    }
  }

  /** The rule at (i, j) of the h x w torus for the cells a list of pairs
      marks alive, read straight off the list. */
  function PatternRule(coords: seq<Coord>, h: int, w: int, i: int, j: int): int {
    Rule(Alive(coords, i, j),
      Alive(coords, Prev(i, h), Prev(j, w)) + Alive(coords, Prev(i, h), j)
      + Alive(coords, Prev(i, h), Next(j, w))
      + Alive(coords, i, Prev(j, w)) + Alive(coords, i, Next(j, w))
      + Alive(coords, Next(i, h), Prev(j, w)) + Alive(coords, Next(i, h), j)
      + Alive(coords, Next(i, h), Next(j, w)))
  }

  /** On a board marked by a list, a cell of the torus generation is
      PatternRule: the list alone decides it. */
  lemma TorusNextOfPattern(b: Board, coords: seq<Coord>, i: int, j: int)
    requires Countable(b) && Marks(b, coords) && 0 <= i < |b| && 0 <= j < |b[0]|
    ensures TorusNext(b)[i][j] == PatternRule(coords, |b|, |b[0]|, i, j)
  {
    var h, w := |b|, |b[0]|;
    var pi, ni, pj, nj := Prev(i, h), Next(i, h), Prev(j, w), Next(j, w);
    assert 0 <= pi < h && 0 <= ni < h && 0 <= pj < w && 0 <= nj < w;
    var n := Alive(coords, pi, pj) + Alive(coords, pi, j) + Alive(coords, pi, nj)
      + Alive(coords, i, pj) + Alive(coords, i, nj)
      + Alive(coords, ni, pj) + Alive(coords, ni, j) + Alive(coords, ni, nj);
    assert TorusNeighbors(b, i, j) == n;
    assert TorusNext(b)[i][j] == Rule(b[i][j], TorusNeighbors(b, i, j));
    assert PatternRule(coords, h, w, i, j) == Rule(Alive(coords, i, j), n);
  }

  /** When the rule, cell by cell on the h x w torus, turns the pairs xs
      into the pairs ys, a generation turns xs's board into ys's. */
  lemma PatternStep(h: nat, w: nat, xs: seq<Coord>, ys: seq<Coord>)
    requires 1 <= h && 1 <= w
    requires forall i, j :: 0 <= i < h && 0 <= j < w ==> PatternRule(xs, h, w, i, j) == Alive(ys, i, j)
    ensures TorusNext(Applied(h, w, xs)) == Applied(h, w, ys)
  {
    var b := Applied(h, w, xs);
    AppliedMarks(h, w, xs);
    forall i, j | 0 <= i < h && 0 <= j < w
      ensures TorusNext(b)[i][j] == Applied(h, w, ys)[i][j]
    {
      TorusNextOfPattern(b, xs, i, j);
      AppliedCell(h, w, ys, i, j);
    }
    SameBoard(TorusNext(b), Applied(h, w, ys));
  }

  /** The blinker lying across the middle row of a 5 x 5 board. */
  const Lying: seq<Coord> := [(2, 1), (2, 2), (2, 3)]

  /** The blinker standing in the middle column. */
  const Standing: seq<Coord> := [(1, 2), (2, 2), (3, 2)]

  const Horizontal: Board := Applied(5, 5, Lying)

  const Vertical: Board := Applied(5, 5, Standing)

  /** The cells Lying marks: row 2, columns 1 to 3. */
  lemma LyingCells()
    ensures forall x, y :: Alive(Lying, x, y) == if x == 2 && 1 <= y <= 3 then 1 else 0
  {
  }

  /** The cells Standing marks: column 2, rows 1 to 3. */
  lemma StandingCells()
    ensures forall x, y :: Alive(Standing, x, y) == if y == 2 && 1 <= x <= 3 then 1 else 0
  {
  }

  /** On the 5 x 5 torus the rule turns Lying into Standing, cell by cell. */
  lemma LyingRule()
    ensures forall i, j :: 0 <= i < 5 && 0 <= j < 5 ==> PatternRule(Lying, 5, 5, i, j) == Alive(Standing, i, j)
  {
    LyingCells();
    StandingCells();
  }

  /** ... and Standing into Lying. */
  lemma StandingRule()
    ensures forall i, j :: 0 <= i < 5 && 0 <= j < 5 ==> PatternRule(Standing, 5, 5, i, j) == Alive(Lying, i, j)
  {
    LyingCells();
    StandingCells();
  }

  lemma RisesOnTorus()
    ensures TorusNext(Horizontal) == Vertical
  {
    LyingRule();
    PatternStep(5, 5, Lying, Standing);
  }

  lemma FallsOnTorus()
    ensures TorusNext(Vertical) == Horizontal
  {
    StandingRule();
    PatternStep(5, 5, Standing, Lying);
  }

  /** One generation turns the lying blinker upright: live cells (2, 1),
      (2, 2), (2, 3) become (1, 2), (2, 2), (3, 2). */
  lemma BlinkerRises()
    ensures NextBoard(Horizontal) == Vertical
  {
    NextBoardOnTorus(Horizontal);
    RisesOnTorus();
  }

  /** The next generation lays it down again: the blinker has period 2. */
  lemma BlinkerFalls()
    ensures NextBoard(Vertical) == Horizontal
  {
    NextBoardOnTorus(Vertical);
    FallsOnTorus();
  }

  /** The 2 x 2 block in the middle of a 4 x 4 board. */
  const Square: seq<Coord> := [(1, 1), (1, 2), (2, 1), (2, 2)]

  const BlockBoard: Board := Applied(4, 4, Square)

  /** The cells Square marks: rows 1 and 2, columns 1 and 2. */
  lemma SquareCells()
    ensures forall x, y :: Alive(Square, x, y) == if 1 <= x <= 2 && 1 <= y <= 2 then 1 else 0
  {
  }

  /** On the 4 x 4 torus the rule leaves every cell of Square as it is:
      each live cell has three live neighbours, and no dead cell has three. */
  lemma SquareRule()
    ensures forall i, j :: 0 <= i < 4 && 0 <= j < 4 ==> PatternRule(Square, 4, 4, i, j) == Alive(Square, i, j)
  {
    SquareCells();
  }

  /** The block is a still life: one generation leaves the board as it
      was. */
  lemma BlockIsStill()
    ensures NextBoard(BlockBoard) == BlockBoard
  {
    SquareRule();
    PatternStep(4, 4, Square, Square);
    NextBoardOnTorus(BlockBoard);
  }

  /** A word is not an int: the line "x,1" is passed over. */
  lemma WordIsIgnored()
    ensures Ignored("x,1")
  {
    SplitPair("x", ',', "1");
  }

  /** Three fields do not unpack into (i, j): the line "1,2,3" is passed over. */
  lemma TripleIsIgnored()
    ensures Ignored("1,2,3")
  {
    SplitAtFirstSep("1", ',', "2,3");
    SplitPair("2", ',', "3");
  }

  /** "0,1" reads as (0, 1). */
  lemma PlainPair()
    ensures ReadsAsCoord("0,1", (0, 1))
  {
    SplitPair("0", ',', "1");
    assert ParseInt("0") == Some(0);
    assert ParseInt("1") == Some(1);
  }

  /** " 2 , 0 " reads as (2, 0): int() strips the spaces around each field. */
  lemma SpacedPair()
    ensures ReadsAsCoord(" 2 , 0 ", (2, 0))
  {
    assert Strip(" 2 , 0 ") == "2 , 0";
    assert "2 , 0" == "2 " + [','] + " 0";
    SplitPair("2 ", ',', " 0");
    SpacedFields();
  }

  /** int() strips the spaces around each field. */
  lemma SpacedFields()
    ensures ParseInt("2 ") == Some(2) && ParseInt(" 0") == Some(0)
  {
    assert Strip("2 ") == "2";
    assert Strip(" 0") == "0";
  }

  /** The lines "0,1" and " 2 , 0 " are read as the pairs (0, 1) and (2, 0).
      The lines are a parameter so that the verifier does not unfold the
      parser on a literal. */
  lemma GliderPairs(lines: seq<string>)
    requires |lines| == 2 && lines[0] == "0,1" && lines[1] == " 2 , 0 "
    ensures ReadAsPairs(lines, [(0, 1), (2, 0)])
  {
    var cs := [(0, 1), (2, 0)];
    assert ReadsAsCoord(lines[0], cs[0]) by { PlainPair(); }
    assert ReadsAsCoord(lines[1], cs[1]) by { SpacedPair(); }
    ReadAsPairsAt(lines, cs);
  }

  /** A file whose lines are the header save_pattern writes for "Glider",
      then "0,1" and " 2 , 0 ", loads as that block with those two pairs.
      The file is a parameter so that the verifier does not unfold the
      parser on a literal. */
  lemma GliderBlock(file: seq<string>)
    requires |file| == 3 && file[0] == HeaderLine("Glider")
    requires file[1] == "0,1" && file[2] == " 2 , 0 "
    ensures Decode(file) == map["Glider" := [(0, 1), (2, 0)]]
  {
    GliderPairs(file[1..]);
    assert file == [HeaderLine("Glider")] + file[1..];
    LoadBlock(file, "Glider", file[1..], [(0, 1), (2, 0)]);
  }

  /** A block whose second pair has spaces around its numbers: both pairs
      are read. */
  lemma SpacedPairIsRead()
    ensures Decode(["# Pattern: Glider", "0,1", " 2 , 0 "]) == map["Glider" := [(0, 1), (2, 0)]]
  {
    assert HeaderLine("Glider") == "# Pattern: Glider" by {
      assert HeaderPrefix + " " == "# Pattern: ";
    }
    GliderBlock(["# Pattern: Glider", "0,1", " 2 , 0 "]);
  }

  /** A blank line, a word and a line of three numbers, put anywhere in a
      file, change nothing that is loaded. */
  lemma StrayLinesChangeNothing(xs: seq<string>, zs: seq<string>)
    ensures Decode(xs + ["", "x,1", "1,2,3"] + zs) == Decode(xs + zs)
  {
    var stray := ["", "x,1", "1,2,3"];
    assert stray[0] == "" && stray[1] == "x,1" && stray[2] == "1,2,3";
    assert Ignored("");
    WordIsIgnored();
    TripleIsIgnored();
    IgnoredLinesChangeNothing(xs, stray, zs);
  }

  /** The same block with a blank line, a word, and a line of three numbers
      in it: the stray lines are skipped and only the two pairs are kept. */
  lemma StrayLinesAreSkipped()
    ensures Decode(["# Pattern: Glider", "0,1"] + ["", "x,1", "1,2,3"] + [" 2 , 0 "])
      == map["Glider" := [(0, 1), (2, 0)]]
  {
    var front, back := ["# Pattern: Glider", "0,1"], [" 2 , 0 "];
    StrayLinesChangeNothing(front, back);
    assert front + back == ["# Pattern: Glider", "0,1", " 2 , 0 "];
    SpacedPairIsRead();
  }
}
